=== FILE: README.md ===
# smart-search: a Dafny model of the search widget's logic

This project models the behavioural core of the `smart-search` web component
library: the text input (`smart-input`), the result list (`smart-dropdown`),
the configurable filter row (`smart-filter`), the filter bar
(`smart-filter-bar`), the host that debounces input and queries a search
provider (`smart-search`), the `debounce` helper, the controller that keeps
the dropdown positioned (`FloatingUIController`), and the mock query
functions used by the demo (`queryAccounts`, `queryTransactions`,
`queryCustomers`).

Every component is modelled as immutable data and pure functions. Events a
component dispatches are returned as values. Time is a logical clock: a
debounced call is a `Call(args, t)` event, and the clock reaching `t` is a
`Tick(t)` event. The search provider is a parameter: a total function from
the query to what its promise settles to (`Resolved(records)` or
`Rejected`), and the awaited call is one atomic step.

Files, one module each:

- `wrappers.dfy` (`Wrappers`): `Option`, for JavaScript's absent values.
- `seqs.dfy` (`Seqs`): `Last` and `Init`, for folds over a trace from its end.
- `text.dfy` (`Text`): ASCII `toLowerCase`, `includes` as a left-to-right
  scan proved equal to a substring definition, the UTF-16 `length`, and the
  decimal form of an index.
- `debounce.dfy` (`Debounce`): the single-slot timer.
- `dropdown.dfy` (`SmartDropdown`): result items, the listbox projection,
  and the click, hover and scroll signals.
- `input.dfy` (`SmartInput`): property defaults, the `beforeinput` filter
  and the event payloads.
- `filter.dfy` (`SmartFilter`): filter configuration, id derivation, markup
  structure and the filter-applied payload.
- `filter_bar.dfy` (`FilterBar`): the two-field filter state.
- `floating.dfy` (`FloatingUi`): the subscribe/release lifecycle.
- `mock_api.dfy` (`MockApi`): the mock records and the three queries.
- `search.dfy` (`SmartSearch`): the host, composed from the debounce and the
  search body.

`smart-search.ts` has no guard against stale responses, and none of the
keyboard navigation, loading and error display, or outside-click handling
that its tests describe. None of these is modelled, and no latest-query-wins property is
claimed.

## Model

| member | source | states |
|---|---|---|
| Debounce.TimerDelay | src/utils/debounce.ts:16-18 | The delay `setTimeout` applies is below 2^31, equals `wait` for every wait in [0, 2^31), and is 0 for a negative 32-bit wait |
| Debounce.WaitWrapsAt32Bits | src/utils/debounce.ts:16-18 | A wait of 2^31 fires at once, 2^32 + 5 waits only 5, and the search's 300 is applied as is |
| Debounce.Step | src/utils/debounce.ts:13-19 | A call cancels whatever is pending and schedules its own arguments `wait` later, running nothing; a tick runs the pending invocation exactly when it is due, and the slot is then empty |
| Debounce.SlotHoldsLastCall | src/utils/debounce.ts:11-18 | At most one invocation is pending, and it is the most recent call, due `wait` after that call |
| Debounce.FiringIsLatestCall | src/utils/debounce.ts:16-18 | An invocation runs with the latest call's arguments, unchanged, only once `wait` has elapsed since that call with no later call in between, and never runs twice |
| Debounce.CallCancelsPending | src/utils/debounce.ts:14-16 | A call cancels a pending invocation even when it is already due: the next tick runs only the new call's arguments, and only once it is due |
| Debounce.InvocationsBoundedByCalls | src/utils/debounce.ts:13-19 | `func` runs no more often than the debounced function is called |
| Debounce.BurstKeepsLastCall | src/utils/debounce.ts:13-18 | During a burst (every event less than `wait` after the latest call) nothing runs and only the last call stays pending |
| Debounce.BurstRunsOnceWithLastArgs | src/utils/debounce.ts:13-18 | A burst followed by the clock passing the last deadline runs `func` exactly once, with the last call's arguments |
| Debounce.BurstExample | src/utils/debounce.ts:13-18 | Calls "a", "ab", "abc" 100 apart with a 300 wait give one run, with "abc" |
| Text.Includes | src/components/smart-input/smart-input.ts:58 | `includes` is true exactly when the needle is a contiguous substring of the haystack |
| Text.IncludesFrom | src/mockAPI/index.ts:20-21 | The scan from position `from` succeeds exactly when the needle occurs at some position at or after `from` |
| Text.ToLower | src/mockAPI/index.ts:12 | `toLowerCase` keeps the length and lower-cases each character in place (ASCII letters only) |
| Text.CodeUnits | src/components/smart-search/smart-search.ts:23 | A character takes two UTF-16 code units exactly when it lies outside the Basic Multilingual Plane, one otherwise |
| Text.Utf16Length | src/components/smart-search/smart-search.ts:23 | JavaScript's `length` of a one-character string is that character's code-unit count; it equals the character count when every character is in the Basic Multilingual Plane, and always lies between the character count and twice it |
| Text.Utf16LengthAppend | src/components/smart-search/smart-search.ts:23 | The length of a concatenation is the sum of the lengths |
| Text.NatToDecimal | src/components/smart-filter/smart-filter.ts:32 | `${index}` prints at least one decimal digit, with no leading zero |
| Text.DecimalRoundTrip | src/components/smart-filter/smart-filter.ts:32 | The decimal form of an index reads back as that index, so distinct indices give distinct ids |
| Text.ToLowerAppend | src/mockAPI/index.ts:12 | Lower-casing a concatenation lower-cases each part |
| SmartDropdown.ListboxId | src/components/smart-dropdown/smart-dropdown.ts:67 | The listbox id is the host's id followed by "-dropdown-listbox" |
| SmartDropdown.Render | src/components/smart-dropdown/smart-dropdown.ts:63-85 | One option per item in item order, with the item's id and primary text; `aria-selected` is "true" and the class "selected" when its id equals `focusedItemId`, and otherwise "false" and "" |
| SmartDropdown.NoFocusNoSelection | src/components/smart-dropdown/smart-dropdown.ts:76-77 | Without `focusedItemId` no option is selected |
| SmartDropdown.AtMostOneSelected | src/components/smart-dropdown/smart-dropdown.ts:76-77 | With pairwise-distinct item ids at most one option is selected |
| SmartDropdown.HandleItemClick | src/components/smart-dropdown/smart-dropdown.ts:26-34 | A click emits item-selected carrying exactly the clicked item |
| SmartDropdown.ClickSelectsRenderedOption | src/components/smart-dropdown/smart-dropdown.ts:71-80 | The click handler bound to the i-th rendered option emits the item that option shows: same id and primary text |
| SmartDropdown.DisabledItemStillSelected | src/components/smart-dropdown/smart-dropdown.ts:26-34 | `isDisabled` is not checked: a disabled item is still emitted on click |
| SmartDropdown.HandlePointerOver | src/components/smart-dropdown/smart-dropdown.ts:36-48 | With a target, item-hovered carries the target element's id (the option's, or the listbox's own over the list); with none, nothing is emitted |
| SmartDropdown.HoverReportsItemId | src/components/smart-dropdown/smart-dropdown.ts:36-48 | Hovering the option of item i reports item i's id |
| SmartDropdown.ScrollRequest | src/components/smart-dropdown/smart-dropdown.ts:50-60 | A scroll happens only when `focusedItemId` changed and is non-empty; it lands on the first element in document order carrying that id (the listbox when its own id matches, else the first matching option), and it happens whenever such an element exists |
| SmartDropdown.FirstOptionWithId | src/components/smart-dropdown/smart-dropdown.ts:52-54 | The search for an option with a given id returns the first such option at or after the start, or reports that there is none |
| SmartDropdown.FocusScrollsToItem | src/components/smart-dropdown/smart-dropdown.ts:50-60 | Focusing a rendered item whose id is non-empty, unique and not the listbox's own id scrolls to that item's option |
| SmartInput.Defaults | src/components/smart-input/smart-input.ts:11-36 | Placeholder "Search...", value "", exclude "", not disabled, no maxlength |
| SmartInput.Mount | src/components/smart-input/smart-input.ts:90 | A freshly rendered input shows the `value` property |
| SmartInput.Blocks | src/components/smart-input/smart-input.ts:54-62 | Input is blocked exactly when `exclude` is non-empty, the data is present and non-empty, and the data is a substring of `exclude` |
| SmartInput.EmptyExcludeNeverBlocks | src/components/smart-input/smart-input.ts:55-56 | With an empty `exclude` nothing is blocked |
| SmartInput.EmptyDataNeverBlocked | src/components/smart-input/smart-input.ts:57 | Null or empty data is never blocked |
| SmartInput.SingleCharBlockedIffExcluded | src/components/smart-input/smart-input.ts:58-60 | One character is blocked exactly when it occurs in `exclude` |
| SmartInput.ExcludeExamples | src/components/smart-input/smart-input.ts:58 | For "123": "1" and "12" are blocked, "a" and "13" are not |
| SmartInput.HandleBeforeInput | src/components/smart-input/smart-input.ts:54-62 | A blocked insertion leaves the text as it was; an allowed one lets the browser's edit through |
| SmartInput.HandleInput | src/components/smart-input/smart-input.ts:40-51 | input-changed carries the element's text unchanged |
| SmartInput.HandleFocusIn | src/components/smart-input/smart-input.ts:64-72 | focus-in carries the `value` property |
| SmartInput.HandleFocusOut | src/components/smart-input/smart-input.ts:74-82 | focus-out carries the `value` property |
| SmartInput.FocusReportsPropertyNotTypedText | src/components/smart-input/smart-input.ts:40-82 | After typing, input-changed reports the typed text while focus events still report the `value` property, which typing never updates |
| SmartFilter.HandleChange | src/components/smart-filter/smart-filter.ts:13-23 | A checkbox emits its checked state, every other kind the element's value, always with `config.filterId` unchanged |
| SmartFilter.ChangeMatchesControl | src/components/smart-filter/smart-filter.ts:13-48 | The change handler of a rendered checkbox reports its checked state and that of a rendered select its value, and a non-empty reported filter id is the one the control id was built from |
| SmartFilter.ControlId | src/components/smart-filter/smart-filter.ts:32 | The control id is "filter-" and then the filter id, or the index when the filter id is empty |
| SmartFilter.LabelId | src/components/smart-filter/smart-filter.ts:38 | The label id is the control id followed by "-label" |
| SmartFilter.RenderControl | src/components/smart-filter/smart-filter.ts:31-61 | A checkbox renders an input and a dropdown a select with one option per configured option in order, both labelled by the label id; date pickers and unknown kinds render nothing |
| SmartFilter.Render | src/components/smart-filter/smart-filter.ts:63-77 | One group per configuration in order; each label's `for` is its control's id and the control's `aria-labelledby` is the label's id |
| SmartFilter.DropdownWithoutOptions | src/components/smart-filter/smart-filter.ts:50-53 | A dropdown without options renders an empty select |
| SmartFilter.DistinctControlIds | src/components/smart-filter/smart-filter.ts:32 | Distinct non-empty filter ids, or empty ids at distinct positions, give distinct control ids |
| SmartFilter.IndexFallbackCanCollide | src/components/smart-filter/smart-filter.ts:67 | An unnamed filter at position 0 and a filter named "0" share the id "filter-0" |
| FilterBar.Initial | src/components/smart-search/smart-filter-bar.ts:7-11 | The initial state has no email filter and an empty date |
| FilterBar.Handle | src/components/smart-search/smart-filter-bar.ts:13-44 | An email change sets `hasEmail` only and a date change sets `joinedBefore` only, each emitting exactly one snapshot of the new state; a key press changes and emits nothing |
| FilterBar.RunInputsSummary | src/components/smart-search/smart-filter-bar.ts:13-35 | Over any input sequence: one event per change, each field holds its own latest value, and the last event equals the final state |
| FilterBar.KeysAreInert | src/components/smart-search/smart-filter-bar.ts:37-44 | Key presses alone leave the state unchanged and emit nothing |
| FloatingUi.Init | src/components/smart-search/floating-ui-controller.ts:12-14 | A new controller stores nothing and nothing is live |
| FloatingUi.SetElements | src/components/smart-search/floating-ui-controller.ts:21-24 | Both handles are recorded, and nothing subscribes or releases |
| FloatingUi.Clear | src/components/smart-search/floating-ui-controller.ts:66-71 | A stored cleanup runs once and is forgotten; without one nothing happens |
| FloatingUi.UpdatePosition | src/components/smart-search/floating-ui-controller.ts:26-64 | The element handles are unchanged; the calls made are exactly the release of the stored subscription, if any, followed by one subscription on the two elements when both are known, whose cleanup is then stored |
| FloatingUi.HostDisconnected | src/components/smart-search/floating-ui-controller.ts:73-75 | Disconnecting is a clear and leaves nothing live |
| FloatingUi.OperationsPreserveConsistency | src/components/smart-search/floating-ui-controller.ts:12-33 | Every operation keeps the stored cleanup equal to the set of live subscriptions |
| FloatingUi.ConsistentAtMostOneLive | src/components/smart-search/floating-ui-controller.ts:12 | At most one subscription is live |
| FloatingUi.UpdatePositionLiveSet | src/components/smart-search/floating-ui-controller.ts:26-33 | After `updatePosition`, nothing is live when an element is missing, otherwise exactly one fresh subscription |
| FloatingUi.ClearIsIdempotent | src/components/smart-search/floating-ui-controller.ts:66-71 | A second clear makes no call and changes nothing |
| FloatingUi.LifetimeAtMostOneLive | src/components/smart-search/floating-ui-controller.ts:12-75 | Over any sequence of operations at most one subscription is live, and none after a final disconnect |
| MockApi.Keep | src/mockAPI/index.ts:18-22 | `filter` keeps, in order, only elements passing the test and every element that passes |
| MockApi.KeepCounts | src/mockAPI/index.ts:18-22 | `filter` keeps each passing element as many times as it occurs and drops every copy of a failing one; with the in-order subsequence clause this fixes the result exactly |
| MockApi.KeepMonotone | src/mockAPI/index.ts:18-22 | Filtering with a stronger test gives a subsequence of filtering with a weaker one |
| MockApi.QueryAccounts | src/mockAPI/index.ts:8-25 | Empty query gives nothing; otherwise the result is the in-order subsequence of exactly the accounts whose nickname or id contains the query ignoring case |
| MockApi.QueryTransactions | src/mockAPI/index.ts:27-46 | The same over merchant and transaction id |
| MockApi.QueryCustomers | src/mockAPI/index.ts:48-65 | The same over name and email |
| MockApi.CaseInsensitive | src/mockAPI/index.ts:12 | Queries equal up to ASCII case give identical results |
| MockApi.ExtendingQueryNarrows | src/mockAPI/index.ts:18-22 | Appending characters to a non-empty query gives a subsequence of the earlier results |
| MockApi.ExampleReturnsAllCustomers | src/mockAPI/index.ts:54-62 | `queryCustomers("EXAMPLE")` returns all four customers in order |
| MockApi.KeepAll | src/mockAPI/index.ts:58-62 | A filter that every record passes returns the whole list |
| SmartSearch.Initial | src/components/smart-search/smart-search.ts:19-20 | The host starts with no pending search and no items |
| SmartSearch.MapResults | src/components/smart-search/smart-search.ts:29 | Mapping keeps the length and order, item i being the mapper applied to record i |
| SmartSearch.DebouncedSearch | src/components/smart-search/smart-search.ts:22-30 | A query shorter than 2 UTF-16 units empties the items without calling the provider; otherwise the provider is called once, a resolved response becomes the mapped items and a rejection leaves the items as they were |
| SmartSearch.Step | src/components/smart-search/smart-search.ts:22-34 | An input-changed value goes unchanged into the 300-unit debounce without touching the items; the clock runs the search exactly when it is due |
| SmartSearch.StepFollowsDebounce | src/components/smart-search/smart-search.ts:32-34 | One host event moves the timer exactly as the debounce helper does and calls the provider only for a long enough fired query |
| SmartSearch.TimelineLast | src/components/smart-search/smart-search.ts:32-34 | The timer sees the host's events one for one, in order |
| SmartSearch.HostTimerIsDebounceSlot | src/components/smart-search/smart-search.ts:22-34 | The host's timer is always the debounce helper's slot |
| SmartSearch.HostFollowsDebounce | src/components/smart-search/smart-search.ts:22-34 | The provider is called exactly for the debounced invocations whose query is long enough, in order |
| SmartSearch.ProviderCallsBoundedByEdits | src/components/smart-search/smart-search.ts:22-34 | The provider is called at most once per input-changed event |
| SmartSearch.BurstSearchesLastValue | src/components/smart-search/smart-search.ts:22-34 | A burst of edits then quiet gives one search on the last value: one provider call if it is long enough, and the items that search produces |
| SmartSearch.DefaultProviderYieldsNothing | src/components/smart-search/smart-search.ts:13-14 | With the default provider the items are empty for every query |
| SmartSearch.DefaultMapperKeepsRecords | src/components/smart-search/smart-search.ts:16-29 | For a query of at least 2 UTF-16 units and a provider that resolves, the default mapper makes the items exactly the provider's records |
| SmartSearch.AstralCharacterReachesProvider | src/components/smart-search/smart-search.ts:23 | A single character outside the Basic Multilingual Plane is two units long, so it reaches the provider |
| SmartSearch.BmpCharacterIsTooShort | src/components/smart-search/smart-search.ts:23-26 | A one-character query inside the Basic Multilingual Plane is one unit long, so it clears the items without calling the provider |
| SmartSearch.Render | src/components/smart-search/smart-search.ts:36-47 | The input gets the "Search..." placeholder; the dropdown is handed exactly the current items and no focused id, so every option has `aria-selected` "false" and class ""; the dropdown has no `id`, so its listbox id is "-dropdown-listbox" |
| SmartSearch.HostClickSelectsItem | src/components/smart-search/smart-search.ts:44 | Clicking the i-th option the host shows emits the host's i-th item |

## Left out

- Lit and DOM machinery (custom-element registration, shadow roots, event bubbling and composition, attribute reflection) is not modelled; dispatched events are returned values.
- Styles, themes, the spinner, the clear button, the base component and the demo page carry no behaviour and are not modelled.
- Real timers and promises are replaced by the logical clock and an atomic provider step. Interleaved, out-of-order provider responses are therefore not modelled; the code has no guard against a stale response overwriting newer items, and the model claims no such guard.
- Debounce.Step: takes the delay the timer applies, not the raw `wait`; `Debounce.TimerDelay` gives that delay for an integer `wait` (32-bit wrap-around, negative clamped to 0), but the debounce lemmas are stated for the applied delay. A fractional or missing `wait` (truncated, or read as 0) is not modelled. The search uses 300, which is applied unchanged.
- SmartSearch.MapResults: `Array.prototype.map` also passes the index and the array to the mapper; the model's mapper takes the record alone, which is what the default mapper uses.
- The unbound `this` of `results.map(this.resultMapper)` inside a user-supplied mapper is not modelled.
- Text.ToLower: only ASCII letters are lower-cased; full Unicode case mapping is not modelled.
- Text.Utf16Length: strings are sequences of Unicode scalar values; a JavaScript string holding an unpaired surrogate (U+D800 to U+DFFF) is not represented, so the length guard and the substring search are modelled for well-formed strings only.
- `scrollIntoView`, `blur` on Escape (the filter's `_handleEscapeKey`), and the browser's caret and insertion logic after an allowed `beforeinput` are not modelled; the edited text is a parameter.
- SmartDropdown.ScrollRequest: `querySelector('#' + id)` throws for ids that are not valid CSS identifiers (a leading digit, say); the model treats every id as a plain lookup.
- The `maxlength` and `disabled` attributes are enforced by the browser and are only carried as properties.
- The floating-ui calls (`computePosition`, `flip`, `size`, `offset`) and their pixel arithmetic are left out; `autoUpdate` is a fresh subscription token.
- The numeric `balance` and `amount` fields of the mock records play no part in searching and are dropped; the simulated network delay is dropped.
- Keyboard navigation, loading and error display, click-outside and form behaviour appear only in the smart-search tests, with no implementation, and are not modelled.
- Build and test-runner configuration is not part of this model.

=== FILE: debounce.dfy ===
/** The `debounce` helper of src/utils/debounce.ts on a logical clock.

    The closure it returns owns one timer slot. Each call clears the slot and
    schedules a new invocation `wait` time units later carrying the call's
    arguments; the timer firing runs `func` with those arguments. `Tick(t)` is
    the clock reaching time `t`, the moment at which a due timer may fire. */
module Debounce {
  import opened Wrappers
  import opened Seqs

  /** The one scheduled invocation: when it is due and what it will receive. */
  datatype Pending<A> = Pending(deadline: int, args: A)

  /** At most one invocation is pending: the slot holds zero or one `Pending`. */
  type Slot<A> = Option<Pending<A>>

  datatype Event<A> = Call(args: A, at: int) | Tick(at: int)

  /** What one event does: the new slot, and the arguments `func` ran with, if it ran. */
  datatype StepResult<A> = StepResult(slot: Slot<A>, ran: Option<A>)

  /** What a trace does: the final slot, and every invocation of `func` in order. */
  datatype RunResult<A> = RunResult(slot: Slot<A>, ran: seq<A>)

  /** The delay a browser's `setTimeout` actually applies to an integer
      `wait`: the timeout argument is converted to a signed 32-bit integer
      (ECMAScript ToInt32, wrapping modulo 2^32), and a negative result is
      replaced by 0. */
  function TimerDelay(wait: int): (d: nat)
    ensures d < 0x8000_0000
    ensures 0 <= wait < 0x8000_0000 ==> d == wait
    ensures wait < 0 && wait >= -0x8000_0000 ==> d == 0
  {
    var m := wait % 0x1_0000_0000;
    var signed := if m >= 0x8000_0000 then m - 0x1_0000_0000 else m;
    if signed < 0 then 0 else signed
  }

  /** A wait of 2^31 wraps to a negative 32-bit value, so it fires at once,
      and 2^32 + 5 waits only 5. */
  lemma WaitWrapsAt32Bits()
    ensures TimerDelay(0x8000_0000) == 0
    ensures TimerDelay(0x1_0000_0005) == 5
    ensures TimerDelay(300) == 300
  {
  }

  /** One event. A call replaces the slot's content and runs nothing; a tick
      runs the pending invocation exactly when it is due, emptying the slot.
      `wait` is the delay the timer applies, that is `TimerDelay` of the
      argument given to `debounce`. */
  function Step<A>(wait: int, slot: Slot<A>, e: Event<A>): (r: StepResult<A>)
    ensures e.Call? ==> r == StepResult(Some(Pending(e.at + wait, e.args)), None)
    ensures e.Tick? && slot.Some? && slot.value.deadline <= e.at ==> r == StepResult(None, Some(slot.value.args))
    ensures e.Tick? && !(slot.Some? && slot.value.deadline <= e.at) ==> r == StepResult(slot, None)
  {
    match e
    case Call(args, at) =>
      StepResult(Some(Pending(at + wait, args)), None)
    case Tick(at) =>
      if slot.Some? && slot.value.deadline <= at then StepResult(None, Some(slot.value.args))
      else StepResult(slot, None)
  }

  function OptionToSeq<X>(o: Option<X>): seq<X> {
    if o.Some? then [o.value] else []
  }

  /** Runs a trace of events from `slot`; returns the final slot and, in order,
      the arguments of every invocation of `func`. */
  function Run<A>(wait: int, slot: Slot<A>, es: seq<Event<A>>): RunResult<A>
    decreases |es|
  {
    if es == [] then RunResult(slot, [])
    else
      var before := Run(wait, slot, Init(es));
      var now := Step(wait, before.slot, Last(es));
      RunResult(now.slot, before.ran + OptionToSeq(now.ran))
  }

  /** The most recent `Call` in a trace. */
  function LastCall<A>(es: seq<Event<A>>): (r: Option<Event<A>>)
    ensures r.Some? ==> r.value.Call? && r.value in es
    ensures r.None? ==> forall i :: 0 <= i < |es| ==> es[i].Tick?
    decreases |es|
  {
    if es == [] then None
    else if Last(es).Call? then Some(Last(es))
    else LastCall(Init(es))
  }

  function CountCalls<A>(es: seq<Event<A>>): nat
    decreases |es|
  {
    if es == [] then 0 else CountCalls(Init(es)) + (if Last(es).Call? then 1 else 0)
  }

  /** Invariant of every run from an empty slot: the slot, when occupied, holds
      exactly the most recent call, due `wait` after it was made. */
  lemma {:induction false} SlotHoldsLastCall<A>(wait: int, es: seq<Event<A>>)
    ensures var s := Run(wait, None, es).slot;
      s.Some? ==> LastCall(es).Some? && s.value == Pending(LastCall(es).value.at + wait, LastCall(es).value.args)
    decreases |es|
  {
    if es != [] {
      SlotHoldsLastCall(wait, Init(es));
    }
  }

  /** A tick that runs `func` runs it with the arguments of the latest call,
      at least `wait` after that call, with no call in between; the slot is
      empty afterwards, so the same invocation never runs twice. */
  lemma FiringIsLatestCall<A>(wait: int, es: seq<Event<A>>, t: int)
    requires Step(wait, Run(wait, None, es).slot, Tick(t)).ran.Some?
    ensures LastCall(es).Some?
    ensures Step(wait, Run(wait, None, es).slot, Tick(t)).ran.value == LastCall(es).value.args
    ensures t >= LastCall(es).value.at + wait
    ensures Step(wait, Run(wait, None, es).slot, Tick(t)).slot.None?
  {
    SlotHoldsLastCall(wait, es);
  }

  /** A call cancels whatever was pending: nothing runs, and the only pending
      invocation is the new one. */
  lemma CallCancelsPending<A>(wait: int, slot: Slot<A>, args: A, t: int, t': int)
    requires slot.Some? && t' >= slot.value.deadline
    ensures var s := Step(wait, slot, Call(args, t)).slot;
      s.Some? && s.value.args == args && s.value.deadline == t + wait
    ensures var s := Step(wait, slot, Call(args, t)).slot;
      Step(wait, s, Tick(t')).ran == (if t' >= t + wait then Some(args) else None)
  {
  }

  /** `func` never runs more often than the debounced function is called. */
  lemma {:induction false} InvocationsBoundedByCalls<A>(wait: int, es: seq<Event<A>>)
    ensures var r := Run(wait, None, es);
      |r.ran| + (if r.slot.Some? then 1 else 0) <= CountCalls(es)
    decreases |es|
  {
    if es != [] {
      InvocationsBoundedByCalls(wait, Init(es));
    }
  }

  /** A burst: it opens with a call, and every later event (call or tick)
      happens less than `wait` after the most recent call, so no timer
      becomes due inside it. */
  predicate Burst<A>(wait: int, es: seq<Event<A>>)
    decreases |es|
  {
    if |es| == 0 then false
    else if |es| == 1 then es[0].Call?
    else
      Burst(wait, Init(es)) &&
      match LastCall(Init(es))
      case Some(c) => Last(es).at < c.at + wait
      case None => false
  }

  /** During a burst nothing runs, and the slot holds the last call. */
  lemma {:induction false} BurstKeepsLastCall<A>(wait: int, slot: Slot<A>, es: seq<Event<A>>)
    requires Burst(wait, es)
    ensures LastCall(es).Some?
    ensures Run(wait, slot, es) == RunResult(Some(Pending(LastCall(es).value.at + wait, LastCall(es).value.args)), [])
    decreases |es|
  {
    if |es| == 1 {
      assert Init(es) == [];
      assert OptionToSeq<A>(None) == [];
    } else {
      BurstKeepsLastCall(wait, slot, Init(es));
    }
  }

  /** For a burst followed by the clock passing the last call's deadline,
      `func` runs exactly once, with the last call's arguments. */
  lemma BurstRunsOnceWithLastArgs<A>(wait: int, slot: Slot<A>, es: seq<Event<A>>, t: int)
    requires Burst(wait, es)
    requires LastCall(es).Some? && t >= LastCall(es).value.at + wait
    ensures Run(wait, slot, es + [Tick(t)]) == RunResult(None, [LastCall(es).value.args])
  {
    BurstKeepsLastCall(wait, slot, es);
    var es' := es + [Tick(t)];
    assert Init(es') == es && Last(es') == Tick(t);
    var c := LastCall(es).value;
    assert Step(wait, Some(Pending(c.at + wait, c.args)), Tick(t)) == StepResult(None, Some(c.args));
    assert OptionToSeq(Some(c.args)) == [c.args];
  }

  /** Example: three calls 100 apart with a 300 wait, a tick in between that
      is not due, then the clock reaching 500: one invocation, with "abc". */
  lemma BurstExample()
    ensures Run(300, None, [Call("a", 0), Call("ab", 100), Tick(150), Call("abc", 200), Tick(500)])
         == RunResult(None, ["abc"])
  {
    var es := [Call("a", 0), Call("ab", 100), Tick(150), Call("abc", 200)];
    assert Init(es) == [Call("a", 0), Call("ab", 100), Tick(150)];
    assert Init(Init(es)) == [Call("a", 0), Call("ab", 100)];
    assert Init(Init(Init(es))) == [Call("a", 0)];
    assert Burst(300, es);
    BurstRunsOnceWithLastArgs(300, None, es, 500);
    assert es + [Tick(500)] == [Call("a", 0), Call("ab", 100), Tick(150), Call("abc", 200), Tick(500)];
  }
}

=== FILE: dropdown.dfy ===
/** The `smart-dropdown` list of src/components/smart-dropdown/smart-dropdown.ts:
    the result item record, the listbox it renders, and the three signals it
    raises (item-selected, item-hovered, scroll-into-view). */
module SmartDropdown {
  import opened Wrappers

  /** One search result. `original` is the provider's record, carried untouched. */
  datatype SearchResultItem<T> = SearchResultItem(
    id: string,
    primaryText: string,
    secondaryText: Option<string>,
    icon: Option<string>,
    value: Option<string>,
    isDisabled: Option<bool>,
    original: T)

  /** A rendered `<li role="option">`: its id, text, class and `aria-selected`. */
  datatype OptionView = OptionView(id: string, text: string, cssClass: string, ariaSelected: string)

  /** The rendered `<ul role="listbox">` with its options. */
  datatype ListboxView = ListboxView(id: string, options: seq<OptionView>)

  /** The component's events, carried as values. */
  datatype Signal<T> = ItemSelected(item: SearchResultItem<T>) | ItemHovered(itemId: string)

  /** The id of the listbox: the host element's id followed by "-dropdown-listbox". */
  function ListboxId(hostId: string): (r: string)
    ensures |r| == |hostId| + 17 && r[..|hostId|] == hostId && r[|hostId|..] == "-dropdown-listbox"
  {
    hostId + "-dropdown-listbox"
  }

  /** Whether the option of `item` is the focused one (`focusedItemId === item.id`;
      an absent `focusedItemId` equals no id). */
  predicate IsFocused<T>(focusedItemId: Option<string>, item: SearchResultItem<T>) {
    focusedItemId == Some(item.id)
  }

  function RenderOption<T>(focusedItemId: Option<string>, item: SearchResultItem<T>): OptionView {
    var selected := IsFocused(focusedItemId, item);
    OptionView(item.id, item.primaryText, if selected then "selected" else "", if selected then "true" else "false")
  }

  /** One option per item, in item order, each carrying the item's id and
      primary text; an option is marked selected (class and aria) exactly when
      its id is the focused id. */
  function Render<T>(hostId: string, items: seq<SearchResultItem<T>>, focusedItemId: Option<string>): (v: ListboxView)
    ensures v.id == ListboxId(hostId)
    ensures |v.options| == |items|
    ensures forall i :: 0 <= i < |items| ==>
      v.options[i].id == items[i].id && v.options[i].text == items[i].primaryText
    ensures forall i :: 0 <= i < |items| ==>
      v.options[i].ariaSelected == (if Some(v.options[i].id) == focusedItemId then "true" else "false")
    ensures forall i :: 0 <= i < |items| ==>
      v.options[i].cssClass == (if Some(v.options[i].id) == focusedItemId then "selected" else "")
  {
    ListboxView(ListboxId(hostId), seq(|items|, i requires 0 <= i < |items| => RenderOption(focusedItemId, items[i])))
  }

  predicate Selected(o: OptionView) {
    o.ariaSelected == "true"
  }

  predicate DistinctIds<T>(items: seq<SearchResultItem<T>>) {
    forall i, j :: 0 <= i < j < |items| ==> items[i].id != items[j].id
  }

  /** Without a focused id no option is selected. */
  lemma NoFocusNoSelection<T>(hostId: string, items: seq<SearchResultItem<T>>)
    ensures forall i :: 0 <= i < |items| ==>
      !Selected(Render(hostId, items, None).options[i]) && Render(hostId, items, None).options[i].cssClass == ""
  {
  }

  /** With pairwise-distinct item ids at most one option is selected. */
  lemma AtMostOneSelected<T>(hostId: string, items: seq<SearchResultItem<T>>, focusedItemId: Option<string>, i: int, j: int)
    requires DistinctIds(items)
    requires 0 <= i < |items| && 0 <= j < |items|
    requires Selected(Render(hostId, items, focusedItemId).options[i])
    requires Selected(Render(hostId, items, focusedItemId).options[j])
    ensures i == j
  {
  }

  /** Clicking the option at `index` selects exactly that item; `isDisabled`
      is not consulted. */
  function HandleItemClick<T>(items: seq<SearchResultItem<T>>, index: nat): (s: Signal<T>)
    requires index < |items|
    ensures s.ItemSelected? && s.item == items[index]
  {
    ItemSelected(items[index])
  }

  /** The click handler bound to the `i`-th rendered option selects the very
      item that option shows: same id, same primary text. */
  lemma ClickSelectsRenderedOption<T>(hostId: string, items: seq<SearchResultItem<T>>,
                                      focusedItemId: Option<string>, i: nat)
    requires i < |items|
    ensures var o := Render(hostId, items, focusedItemId).options[i];
      HandleItemClick(items, i).item.id == o.id && HandleItemClick(items, i).item.primaryText == o.text
  {
  }

  /** A disabled item is still selectable by click. */
  lemma DisabledItemStillSelected<T>(items: seq<SearchResultItem<T>>, index: nat)
    requires index < |items| && items[index].isDisabled == Some(true)
    ensures HandleItemClick(items, index).item.isDisabled == Some(true)
  {
  }

  /** What a pointer can be over inside the listbox: nothing, the list itself,
      or one of its options. */
  datatype PointerTarget = NoTarget | OverListbox | OverOption(index: nat)

  /** `pointerover`: when there is a target, item-hovered carries the id of the
      element under the pointer. That is the item's id over an option, but the
      listbox's own id over the list's padding. */
  function HandlePointerOver<T>(view: ListboxView, target: PointerTarget): (s: Option<Signal<T>>)
    requires target.OverOption? ==> target.index < |view.options|
    ensures target.NoTarget? <==> s.None?
    ensures target.OverOption? ==> s == Some(ItemHovered(view.options[target.index].id))
    ensures target.OverListbox? ==> s == Some(ItemHovered(view.id))
  {
    match target
    case NoTarget => None
    case OverListbox => Some(ItemHovered(view.id))
    case OverOption(i) => Some(ItemHovered(view.options[i].id))
  }

  /** Hovering the option rendered for `items[i]` reports `items[i].id`. */
  lemma HoverReportsItemId<T>(hostId: string, items: seq<SearchResultItem<T>>, focusedItemId: Option<string>, i: nat)
    requires i < |items|
    ensures HandlePointerOver<T>(Render(hostId, items, focusedItemId), OverOption(i)) == Some(ItemHovered(items[i].id))
  {
  }

  /** Where `querySelector('#id')` lands: the first element in document order
      with that id, the listbox coming before its options. */
  datatype ScrollTarget = ScrollListbox | ScrollOption(index: nat)

  function FirstOptionWithId(options: seq<OptionView>, id: string, from: nat): (r: Option<nat>)
    requires from <= |options|
    ensures r.Some? ==> from <= r.value < |options| && options[r.value].id == id
    ensures r.Some? ==> forall k :: from <= k < r.value ==> options[k].id != id
    ensures r.None? ==> forall k :: from <= k < |options| ==> options[k].id != id
    decreases |options| - from
  {
    if from == |options| then None
    else if options[from].id == id then Some(from)
    else FirstOptionWithId(options, id, from + 1)
  }

  /** `updated`: a scroll is requested only when `focusedItemId` is among the
      changed properties and is a non-empty string, and it lands on the first
      element in document order carrying that id: the listbox itself if its
      id matches, otherwise the first matching option. Whenever such an
      element exists a scroll is requested. */
  function ScrollRequest(view: ListboxView, focusedChanged: bool, focusedItemId: Option<string>): (r: Option<ScrollTarget>)
    ensures r.Some? ==> focusedChanged && focusedItemId.Some? && focusedItemId.value != ""
    ensures r == Some(ScrollListbox) ==> view.id == focusedItemId.value
    ensures r.Some? && r.value.ScrollOption? ==>
      view.id != focusedItemId.value &&
      r.value.index < |view.options| && view.options[r.value.index].id == focusedItemId.value &&
      forall k :: 0 <= k < r.value.index ==> view.options[k].id != focusedItemId.value
    ensures (focusedChanged && focusedItemId.Some? && focusedItemId.value != "" &&
             (view.id == focusedItemId.value ||
              exists k :: 0 <= k < |view.options| && view.options[k].id == focusedItemId.value)) ==> r.Some?
  {
    if focusedChanged && focusedItemId.Some? && focusedItemId.value != "" then
      if view.id == focusedItemId.value then Some(ScrollListbox)
      else
        match FirstOptionWithId(view.options, focusedItemId.value, 0)
        case Some(k) => Some(ScrollOption(k))
        case None => None
    else None
  }

  /** Focusing a rendered item scrolls to that item's option (given distinct
      ids and an id that is not the listbox's own). */
  lemma FocusScrollsToItem<T>(hostId: string, items: seq<SearchResultItem<T>>, i: nat)
    requires DistinctIds(items) && i < |items|
    requires items[i].id != "" && items[i].id != ListboxId(hostId)
    ensures ScrollRequest(Render(hostId, items, Some(items[i].id)), true, Some(items[i].id)) == Some(ScrollOption(i))
  {
    var v := Render(hostId, items, Some(items[i].id));
    assert v.options[i].id == items[i].id;
  }
}

=== FILE: filter.dfy ===
/** The `smart-filter` row of src/components/smart-filter/smart-filter.ts and
    its configuration record from src/components/smart-filter/type.ts: the ids
    it derives, the markup structure per filter kind, and the filter-applied
    payload. */
module SmartFilter {
  import opened Wrappers
  import Text

  /** The declared kinds, plus any other string a JavaScript caller may pass
      (the `default:` branch). `Other(name)` stands for a `name` that is none
      of "checkbox", "dropdown" and "date-picker": those strings are the three
      declared constructors. */
  datatype ComponentType = Checkbox | Dropdown | DatePicker | Other(name: string)

  /** One dropdown choice: its visible label and its submitted value. */
  datatype FilterOption = FilterOption(labelText: string, value: string)

  /** `options` is read with `?.` by the dropdown branch but is not declared in
      the configuration type, so it may be absent. */
  datatype FilterConfig = FilterConfig(
    filterId: string,
    componentType: ComponentType,
    labelText: string,
    options: Option<seq<FilterOption>>)

  /** What filter-applied carries: a checkbox's `checked`, or an element's `value`. */
  datatype FilterValue = Checked(checked: bool) | TextValue(text: string)

  datatype FilterApplied = FilterApplied(filterId: string, value: FilterValue)

  /** The native control that raised `change`. */
  datatype ControlState = ControlState(checked: bool, value: string)

  /** `_handleChange`: a checkbox reports its checked state, every other kind
      its string value, always paired with the configured `filterId`. */
  function HandleChange(config: FilterConfig, el: ControlState): (e: FilterApplied)
    ensures e.filterId == config.filterId
    ensures config.componentType.Checkbox? <==> e.value.Checked?
    ensures e.value.Checked? ==> e.value.checked == el.checked
    ensures e.value.TextValue? ==> e.value.text == el.value
  {
    var value := if config.componentType == Checkbox then Checked(el.checked) else TextValue(el.value);
    FilterApplied(config.filterId, value)
  }

  /** The control id: "filter-" and then the filter id, or the configuration's
      position when the filter id is empty (`filterId || index`). */
  function ControlId(config: FilterConfig, index: nat): (id: string)
    ensures |id| >= 8 && id[..7] == "filter-"
    ensures config.filterId != "" ==> id[7..] == config.filterId
    ensures config.filterId == "" ==> id[7..] == Text.NatToDecimal(index)
  {
    "filter-" + (if config.filterId != "" then config.filterId else Text.NatToDecimal(index))
  }

  /** The label id: the control id followed by "-label". */
  function LabelId(controlId: string): (id: string)
    ensures |id| == |controlId| + 6
    ensures id[..|controlId|] == controlId && id[|controlId|..] == "-label"
  {
    controlId + "-label"
  }

  datatype OptionElement = OptionElement(value: string, text: string)

  /** The control rendered for one configuration; date pickers and unknown
      kinds render nothing. */
  datatype Control =
    | CheckboxInput(id: string, labelledBy: string)
    | Select(id: string, labelledBy: string, options: seq<OptionElement>)
    | NoControl

  /** One `.filter-group`: a label pointing at the control, and the control. */
  datatype Group = Group(labelId: string, labelFor: string, labelText: string, control: Control)

  /** `_getComponent`. */
  function RenderControl(config: FilterConfig, index: nat): (c: Control)
    ensures config.componentType.Checkbox? <==> c.CheckboxInput?
    ensures config.componentType.Dropdown? <==> c.Select?
    ensures !c.NoControl? ==> c.id == ControlId(config, index) && c.labelledBy == LabelId(c.id)
    ensures c.Select? ==>
      var opts := config.options.GetOr([]);
      |c.options| == |opts| &&
      forall k :: 0 <= k < |opts| ==> c.options[k] == OptionElement(opts[k].value, opts[k].labelText)
  {
    var baseId := ControlId(config, index);
    match config.componentType
    case Checkbox => CheckboxInput(baseId, baseId + "-label")
    case Dropdown =>
      var opts := config.options.GetOr([]);
      Select(baseId, baseId + "-label",
        seq(|opts|, k requires 0 <= k < |opts| => OptionElement(opts[k].value, opts[k].labelText)))
    case DatePicker => NoControl
    case Other(_) => NoControl
  }

  /** `render`: one group per configuration entry, in order; each label names
      its control (`for`) and is named by it (`aria-labelledby`). */
  function Render(configs: seq<FilterConfig>): (gs: seq<Group>)
    ensures |gs| == |configs|
    ensures forall i :: 0 <= i < |configs| ==>
      gs[i].labelText == configs[i].labelText &&
      gs[i].labelFor == ControlId(configs[i], i) &&
      gs[i].labelId == LabelId(ControlId(configs[i], i)) &&
      gs[i].control == RenderControl(configs[i], i)
    ensures forall i :: 0 <= i < |configs| && !gs[i].control.NoControl? ==>
      gs[i].control.id == gs[i].labelFor && gs[i].control.labelledBy == gs[i].labelId
  {
    seq(|configs|, i requires 0 <= i < |configs| =>
      var baseId := ControlId(configs[i], i);
      Group(LabelId(baseId), baseId, configs[i].labelText, RenderControl(configs[i], i)))
  }

  /** The change handler bound to a rendered control reports in the shape of
      that control: the checkbox input its checked state, the select its
      value, and the filter id it reports is the one the control id is built
      from whenever that id is non-empty. */
  lemma ChangeMatchesControl(config: FilterConfig, index: nat, el: ControlState)
    ensures RenderControl(config, index).CheckboxInput? <==> HandleChange(config, el).value == Checked(el.checked)
    ensures RenderControl(config, index).Select? ==> HandleChange(config, el).value == TextValue(el.value)
    ensures config.filterId != "" ==> ControlId(config, index) == "filter-" + HandleChange(config, el).filterId
  {
  }

  /** A dropdown without `options` renders an empty select. */
  lemma DropdownWithoutOptions(config: FilterConfig, index: nat)
    requires config.componentType == Dropdown && config.options.None?
    ensures RenderControl(config, index).options == []
  {
  }

  /** Two configurations get distinct control ids when both have non-empty,
      different filter ids, or both have empty filter ids (different positions). */
  lemma DistinctControlIds(a: FilterConfig, i: nat, b: FilterConfig, j: nat)
    requires i != j
    requires (a.filterId != "" && b.filterId != "" && a.filterId != b.filterId) ||
             (a.filterId == "" && b.filterId == "")
    ensures ControlId(a, i) != ControlId(b, j)
  {
    if a.filterId == "" {
      Text.DecimalInjective(i, j);
      assert ControlId(a, i)[7..] != ControlId(b, j)[7..];
    } else {
      assert ControlId(a, i)[7..] != ControlId(b, j)[7..];
    }
  }

  /** Mixing the two schemes can collide: an unnamed filter in position 0 and
      a filter named "0" both get the control id "filter-0". */
  lemma IndexFallbackCanCollide()
    ensures ControlId(FilterConfig("", Checkbox, "a", None), 0) ==
            ControlId(FilterConfig("0", Checkbox, "b", None), 1)
  {
  }
}

=== FILE: filter_bar.dfy ===
/** The `smart-filter-bar` of src/components/smart-search/smart-filter-bar.ts:
    a two-field state (has-email checkbox, joined-before date) where every
    change emits a filters-changed snapshot of the state. */
module FilterBar {

  datatype FilterBarState = FilterBarState(hasEmail: bool, joinedBefore: string)

  /** The filters-changed detail. */
  datatype FiltersChanged = FiltersChanged(hasEmail: bool, joinedBefore: string)

  /** What reaches the bar: a change of either control, or a key press. */
  datatype Input = EmailChange(checked: bool) | DateChange(value: string) | KeyDown(key: string)

  /** The outcome of one input: the new state and the events emitted. */
  datatype Reaction = Reaction(state: FilterBarState, emitted: seq<FiltersChanged>)

  function Initial(): (s: FilterBarState)
    ensures !s.hasEmail && s.joinedBefore == ""
  {
    FilterBarState(false, "")
  }

  function Snapshot(s: FilterBarState): FiltersChanged {
    FiltersChanged(s.hasEmail, s.joinedBefore)
  }

  /** `_handleEmailChange`, `_handleDateChange` and `_handleKeyDown`. A change
      updates its own field only and emits one snapshot of the updated state;
      a key press changes nothing and emits nothing. */
  function Handle(s: FilterBarState, input: Input): (r: Reaction)
    ensures input.EmailChange? ==>
      r.state.hasEmail == input.checked && r.state.joinedBefore == s.joinedBefore
    ensures input.DateChange? ==>
      r.state.joinedBefore == input.value && r.state.hasEmail == s.hasEmail
    ensures !input.KeyDown? ==>
      r.emitted == [FiltersChanged(r.state.hasEmail, r.state.joinedBefore)]
    ensures input.KeyDown? ==> r.state == s && r.emitted == []
  {
    match input
    case EmailChange(checked) =>
      var s' := s.(hasEmail := checked);
      Reaction(s', [Snapshot(s')])
    case DateChange(value) =>
      var s' := s.(joinedBefore := value);
      Reaction(s', [Snapshot(s')])
    case KeyDown(_) =>
      Reaction(s, [])
  }

  /** Processes a sequence of inputs, collecting every emitted event. */
  function RunInputs(s: FilterBarState, inputs: seq<Input>): Reaction
    decreases |inputs|
  {
    if inputs == [] then Reaction(s, [])
    else
      var first := Handle(s, inputs[0]);
      var rest := RunInputs(first.state, inputs[1..]);
      Reaction(rest.state, first.emitted + rest.emitted)
  }

  function CountChanges(inputs: seq<Input>): nat {
    if inputs == [] then 0 else (if inputs[0].KeyDown? then 0 else 1) + CountChanges(inputs[1..])
  }

  /** The latest checkbox state in `inputs`, or `current` if there was none. */
  function LastEmail(current: bool, inputs: seq<Input>): bool
    decreases |inputs|
  {
    if inputs == [] then current
    else LastEmail(if inputs[0].EmailChange? then inputs[0].checked else current, inputs[1..])
  }

  /** The latest date in `inputs`, or `current` if there was none. */
  function LastDate(current: string, inputs: seq<Input>): string
    decreases |inputs|
  {
    if inputs == [] then current
    else LastDate(if inputs[0].DateChange? then inputs[0].value else current, inputs[1..])
  }

  /** After any sequence of inputs: one event per change, each field holds its
      latest value independently of the other, and the last event describes
      the final state exactly (with no event, nothing changed). */
  lemma {:induction false} RunInputsSummary(s: FilterBarState, inputs: seq<Input>)
    ensures var r := RunInputs(s, inputs);
      |r.emitted| == CountChanges(inputs) &&
      r.state.hasEmail == LastEmail(s.hasEmail, inputs) &&
      r.state.joinedBefore == LastDate(s.joinedBefore, inputs) &&
      (r.emitted == [] ==> r.state == s) &&
      (r.emitted != [] ==> r.emitted[|r.emitted| - 1] == Snapshot(r.state))
    decreases |inputs|
  {
    if inputs != [] {
      RunInputsSummary(Handle(s, inputs[0]).state, inputs[1..]);
    }
  }

  /** Key presses alone leave the bar untouched and silent. */
  lemma {:induction false} KeysAreInert(s: FilterBarState, inputs: seq<Input>)
    requires forall k :: 0 <= k < |inputs| ==> inputs[k].KeyDown?
    ensures RunInputs(s, inputs) == Reaction(s, [])
    decreases |inputs|
  {
    if inputs != [] {
      KeysAreInert(s, inputs[1..]);
    }
  }
}

=== FILE: floating.dfy ===
/** The subscription discipline of `FloatingUIController` in
    src/components/smart-search/floating-ui-controller.ts.

    `autoUpdate` from the positioning library starts a live observation of the
    two elements and returns its cleanup function; the model numbers each such
    subscription with a fresh token and keeps the set of live ones beside the
    controller, so that the controller's bookkeeping can be checked against
    what is actually running. The position arithmetic is not modelled. */
module FloatingUi {
  import opened Wrappers

  /** An element handle, opaque to the controller. */
  type Element = nat

  datatype Controller = Controller(
    cleanup: Option<nat>,          // the token whose cleanup is stored, if any
    inputElement: Option<Element>,
    dropdownElement: Option<Element>)

  /** The controller together with the library's live subscriptions. */
  datatype World = World(ctrl: Controller, live: set<nat>, nextToken: nat)

  /** Calls into the positioning library, in the order they are made. */
  datatype Effect = Subscribed(token: nat, input: Element, dropdown: Element) | Released(token: nat)

  datatype Outcome = Outcome(world: World, effects: seq<Effect>)

  /** A new controller: nothing stored, nothing live. */
  function Init(): (w: World)
    ensures w.ctrl.cleanup.None? && w.ctrl.inputElement.None? && w.ctrl.dropdownElement.None?
    ensures w.live == {}
  {
    World(Controller(None, None, None), {}, 0)
  }

  /** The controller's stored cleanup is exactly the live subscription, and
      every token handed out so far is below `nextToken`. */
  ghost predicate Consistent(w: World) {
    && w.live == (if w.ctrl.cleanup.Some? then {w.ctrl.cleanup.value} else {})
    && forall t :: t in w.live ==> t < w.nextToken
  }

  /** `setElements`: records both handles; no subscription starts or stops. */
  function SetElements(w: World, input: Element, dropdown: Element): (o: Outcome)
    ensures o.world.ctrl.inputElement == Some(input) && o.world.ctrl.dropdownElement == Some(dropdown)
    ensures o.world.ctrl.cleanup == w.ctrl.cleanup && o.world.live == w.live
    ensures o.effects == []
  {
    Outcome(w.(ctrl := w.ctrl.(inputElement := Some(input), dropdownElement := Some(dropdown))), [])
  }

  /** `clear`: runs the stored cleanup, if any, and forgets it. */
  function Clear(w: World): (o: Outcome)
    ensures o.world.ctrl.cleanup.None?
    ensures o.world.ctrl.inputElement == w.ctrl.inputElement
    ensures o.world.ctrl.dropdownElement == w.ctrl.dropdownElement
    ensures w.ctrl.cleanup.Some? ==>
      o.effects == [Released(w.ctrl.cleanup.value)] && o.world.live == w.live - {w.ctrl.cleanup.value}
    ensures w.ctrl.cleanup.None? ==> o.effects == [] && o.world == w
  {
    match w.ctrl.cleanup
    case Some(t) => Outcome(World(w.ctrl.(cleanup := None), w.live - {t}, w.nextToken), [Released(t)])
    case None => Outcome(w, [])
  }

  /** `updatePosition`: always clears first; then, with both elements known,
      starts one new subscription and stores its cleanup. */
  function UpdatePosition(w: World): (o: Outcome)
    ensures o.world.ctrl.inputElement == w.ctrl.inputElement
    ensures o.world.ctrl.dropdownElement == w.ctrl.dropdownElement
    ensures o.effects ==
      (if w.ctrl.cleanup.Some? then [Released(w.ctrl.cleanup.value)] else []) +
      (if w.ctrl.inputElement.Some? && w.ctrl.dropdownElement.Some?
       then [Subscribed(w.nextToken, w.ctrl.inputElement.value, w.ctrl.dropdownElement.value)]
       else [])
    ensures w.ctrl.cleanup.Some? ==> |o.effects| >= 1 && o.effects[0] == Released(w.ctrl.cleanup.value)
    ensures w.ctrl.cleanup.None? ==> forall k :: 0 <= k < |o.effects| ==> !o.effects[k].Released?
    ensures (w.ctrl.inputElement.None? || w.ctrl.dropdownElement.None?) ==>
      o.world.ctrl.cleanup.None? && forall k :: 0 <= k < |o.effects| ==> !o.effects[k].Subscribed?
    ensures (w.ctrl.inputElement.Some? && w.ctrl.dropdownElement.Some?) ==>
      o.world.ctrl.cleanup == Some(w.nextToken) && |o.effects| >= 1 &&
      o.effects[|o.effects| - 1] ==
        Subscribed(w.nextToken, w.ctrl.inputElement.value, w.ctrl.dropdownElement.value)
  {
    var cleared := Clear(w);
    var c := cleared.world;
    if c.ctrl.inputElement.None? || c.ctrl.dropdownElement.None? then
      cleared
    else
      var t := c.nextToken;
      Outcome(
        World(c.ctrl.(cleanup := Some(t)), c.live + {t}, t + 1),
        cleared.effects + [Subscribed(t, c.ctrl.inputElement.value, c.ctrl.dropdownElement.value)])
  }

  /** `hostDisconnected`: the same as `clear`. */
  function HostDisconnected(w: World): (o: Outcome)
    ensures o == Clear(w)
    ensures Consistent(w) ==> o.world.live == {}
  {
    Clear(w)
  }

  /** Every operation keeps the controller consistent with the library: at
      most one subscription is live, and it is the stored one. */
  lemma OperationsPreserveConsistency(w: World, input: Element, dropdown: Element)
    requires Consistent(w)
    ensures Consistent(SetElements(w, input, dropdown).world)
    ensures Consistent(Clear(w).world)
    ensures Consistent(UpdatePosition(w).world)
    ensures Consistent(HostDisconnected(w).world)
  {
  }

  lemma ConsistentAtMostOneLive(w: World)
    requires Consistent(w)
    ensures |w.live| <= 1
  {
  }

  /** From a consistent state, `updatePosition` with missing elements leaves
      nothing live, and with both elements exactly one (fresh) subscription. */
  lemma UpdatePositionLiveSet(w: World)
    requires Consistent(w)
    ensures (w.ctrl.inputElement.None? || w.ctrl.dropdownElement.None?) ==> UpdatePosition(w).world.live == {}
    ensures (w.ctrl.inputElement.Some? && w.ctrl.dropdownElement.Some?) ==>
      UpdatePosition(w).world.live == {w.nextToken} && w.nextToken !in w.live
  {
  }

  /** A second `clear` finds nothing stored: it makes no call and changes nothing. */
  lemma ClearIsIdempotent(w: World)
    ensures Clear(Clear(w).world) == Outcome(Clear(w).world, [])
  {
  }

  datatype Op = SetElementsOp(input: Element, dropdown: Element) | UpdatePositionOp | ClearOp | HostDisconnectedOp

  function Apply(w: World, op: Op): World {
    match op
    case SetElementsOp(i, d) => SetElements(w, i, d).world
    case UpdatePositionOp => UpdatePosition(w).world
    case ClearOp => Clear(w).world
    case HostDisconnectedOp => HostDisconnected(w).world
  }

  function ApplyAll(w: World, ops: seq<Op>): World
    decreases |ops|
  {
    if ops == [] then w else ApplyAll(Apply(w, ops[0]), ops[1..])
  }

  /** Over any lifetime of the controller, at most one subscription is ever
      live at a time, and after a final disconnect none is. */
  lemma {:induction false} LifetimeAtMostOneLive(w: World, ops: seq<Op>)
    requires Consistent(w)
    ensures Consistent(ApplyAll(w, ops)) && |ApplyAll(w, ops).live| <= 1
    ensures ops != [] && ops[|ops| - 1] == HostDisconnectedOp ==> ApplyAll(w, ops).live == {}
    decreases |ops|
  {
    if ops != [] {
      var op := ops[0];
      match op {
        case SetElementsOp(i, d) => OperationsPreserveConsistency(w, i, d);
        case _ => OperationsPreserveConsistency(w, 0, 0);
      }
      LifetimeAtMostOneLive(Apply(w, op), ops[1..]);
      if |ops| > 1 {
        assert ops[1..][|ops[1..]| - 1] == ops[|ops| - 1];
      }
    }
  }
}

=== FILE: input.dfy ===
/** The `smart-input` text field of src/components/smart-input/smart-input.ts:
    its properties and defaults, the `beforeinput` filter that blocks excluded
    text, and the input-changed / focus-in / focus-out payloads. */
module SmartInput {
  import opened Wrappers
  import Text

  datatype Props = Props(
    placeholder: string,
    value: string,
    maxlength: Option<int>,
    exclude: string,
    disabled: bool)

  /** The component's events, carried as values. */
  datatype Signal = InputChanged(value: string) | FocusIn(value: string) | FocusOut(value: string)

  /** The component as a user sees it: its properties, and the text currently
      in the native `<input>` element. */
  datatype InputState = InputState(props: Props, elementText: string)

  /** The property defaults. */
  function Defaults(): (p: Props)
    ensures p.placeholder == "Search..." && p.value == "" && p.exclude == "" && !p.disabled
    ensures p.maxlength.None?
  {
    Props("Search...", "", None, "", false)
  }

  /** A freshly rendered input shows its `value` property. */
  function Mount(props: Props): (s: InputState)
    ensures s.props == props && s.elementText == props.value
  {
    InputState(props, props.value)
  }

  /** `beforeinput`: the insertion of `data` (absent for deletions and the like)
      is cancelled when `exclude` is non-empty, `data` is non-empty, and `data`
      is a substring of `exclude`. */
  function Blocks(exclude: string, data: Option<string>): (b: bool)
    ensures b <==> exclude != "" && data.Some? && data.value != "" && Text.Occurs(data.value, exclude)
  {
    exclude != "" && data.Some? && data.value != "" && Text.Includes(exclude, data.value)
  }

  /** An empty `exclude` never blocks anything. */
  lemma EmptyExcludeNeverBlocks(data: Option<string>)
    ensures !Blocks("", data)
  {
  }

  /** Absent or empty data is never blocked. */
  lemma EmptyDataNeverBlocked(exclude: string)
    ensures !Blocks(exclude, None) && !Blocks(exclude, Some(""))
  {
  }

  /** A single typed character is blocked exactly when it is one of the
      excluded characters. */
  lemma SingleCharBlockedIffExcluded(exclude: string, c: char)
    ensures Blocks(exclude, Some([c])) <==> c in exclude
  {
    Text.SingleOccurs(c, exclude);
  }

  /** Multi-character data is tested as a contiguous run of `exclude`, not
      character by character: with "123", "1" and "12" are blocked, "a" and
      "13" are not. */
  lemma ExcludeExamples()
    ensures Blocks("123", Some("1")) && Blocks("123", Some("12"))
    ensures !Blocks("123", Some("a")) && !Blocks("123", Some("13"))
  {
    SingleCharBlockedIffExcluded("123", '1');
    SingleCharBlockedIffExcluded("123", 'a');
    assert Text.MatchAt("123", "12", 0);
    assert "123"[0..2][1] != "13"[1];
    assert "123"[1..3][0] != "13"[0];
  }

  /** A `beforeinput` either is cancelled, leaving the text as it was, or lets
      the browser's edit through; `edited` is the text the browser would
      produce (caret handling is the browser's). */
  function HandleBeforeInput(s: InputState, data: Option<string>, edited: string): (r: InputState)
    ensures r.props == s.props
    ensures Blocks(s.props.exclude, data) ==> r.elementText == s.elementText
    ensures !Blocks(s.props.exclude, data) ==> r.elementText == edited
  {
    if Blocks(s.props.exclude, data) then s else s.(elementText := edited)
  }

  /** `input`: input-changed carries the element's current text unchanged. */
  function HandleInput(s: InputState): (e: Signal)
    ensures e.InputChanged? && e.value == s.elementText
  {
    InputChanged(s.elementText)
  }

  /** `focus`: focus-in carries the `value` property. */
  function HandleFocusIn(s: InputState): (e: Signal)
    ensures e.FocusIn? && e.value == s.props.value
  {
    FocusIn(s.props.value)
  }

  /** `blur`: focus-out carries the `value` property. */
  function HandleFocusOut(s: InputState): (e: Signal)
    ensures e.FocusOut? && e.value == s.props.value
  {
    FocusOut(s.props.value)
  }

  /** Typing never writes back to the `value` property, so after any edits
      focus-in and focus-out still report the value the host last set, while
      input-changed reports what was typed. */
  lemma FocusReportsPropertyNotTypedText(s: InputState, data: Option<string>, edited: string)
    requires !Blocks(s.props.exclude, data)
    ensures HandleInput(HandleBeforeInput(s, data, edited)) == InputChanged(edited)
    ensures HandleFocusIn(HandleBeforeInput(s, data, edited)) == FocusIn(s.props.value)
    ensures HandleFocusOut(HandleBeforeInput(s, data, edited)) == FocusOut(s.props.value)
  {
  }
}

=== FILE: mock_api.dfy ===
/** The mock query functions of src/mockAPI/index.ts over the fixed records of
    the files under src/mockAPI/data. Each lower-cases the query, returns nothing for an
    empty query, and otherwise keeps, in order, the records one of whose two
    searchable fields contains the query case-insensitively. The simulated
    network delay is not modelled. */
module MockApi {
  import Text

  /** `balance` is left out: it plays no part in the search. */
  datatype Account = Account(accountId: string, nickname: string, kind: AccountKind)
  datatype AccountKind = CheckingAccount | SavingsAccount

  /** `amount` is left out: it plays no part in the search. */
  datatype Transaction = Transaction(trxId: string, merchant: string, posted: string, accountId: string)

  datatype Customer = Customer(customerId: string, name: string, email: string, memberSince: string)

  const MockAccounts: seq<Account> := [
    Account("acc-101", "Primary Checking", CheckingAccount),
    Account("acc-102", "Vacation Savings", SavingsAccount),
    Account("acc-103", "Emergency Fund", SavingsAccount),
    Account("acc-104", "Business Platinum", CheckingAccount)
  ]

  const MockTransactions: seq<Transaction> := [
    Transaction("trx-201", "Amazon", "2025-10-24", "acc-101"),
    Transaction("trx-202", "Whole Foods", "2025-10-23", "acc-101"),
    Transaction("trx-203", "Paycheck Deposit", "2025-10-22", "acc-101"),
    Transaction("trx-204", "Shell Gas", "2025-10-21", "acc-104")
  ]

  const MockCustomers: seq<Customer> := [
    Customer("cust-301", "John Doe", "john.doe@example.com", "2018-05-15"),
    Customer("cust-302", "Jane Smith", "jane.smith@example.com", "2020-01-20"),
    Customer("cust-303", "Peter Jones", "peter.jones@example.com", "2015-11-30"),
    Customer("cust-304", "Samantha Bee", "samantha.bee@example.com", "2022-02-10")
  ]

  /** `xs` is obtained from `ys` by deleting elements (order is kept). */
  predicate IsSubsequence<X(==)>(xs: seq<X>, ys: seq<X>)
    decreases |ys|
  {
    if xs == [] then true
    else if ys == [] then false
    else if xs[0] == ys[0] then IsSubsequence(xs[1..], ys[1..])
    else IsSubsequence(xs, ys[1..])
  }

  /** `Array.prototype.filter`: the elements satisfying `keep`, in order. */
  function Keep<X(==)>(xs: seq<X>, keep: X -> bool): (r: seq<X>)
    ensures IsSubsequence(r, xs) && |r| <= |xs|
    ensures forall k :: 0 <= k < |r| ==> keep(r[k])
    ensures forall x :: x in xs && keep(x) ==> x in r
    ensures forall x :: x in r ==> x in xs
    decreases |xs|
  {
    if xs == [] then []
    else if keep(xs[0]) then
      var rest := Keep(xs[1..], keep);
      assert forall x :: x in xs && x != xs[0] ==> x in xs[1..];
      [xs[0]] + rest
    else
      var rest := Keep(xs[1..], keep);
      assert forall x :: x in xs && keep(x) ==> x in xs[1..];
      assert IsSubsequence(rest, xs) by { SkipHead(rest, xs); }
      rest
  }

  /** `filter` keeps every copy of a passing element and no copy of a failing
      one, so together with `IsSubsequence` it fixes the result exactly. */
  lemma {:induction false} KeepCounts<X>(xs: seq<X>, keep: X -> bool)
    ensures forall x :: x in xs ==> multiset(Keep(xs, keep))[x] == (if keep(x) then multiset(xs)[x] else 0)
    decreases |xs|
  {
    if xs != [] {
      KeepCounts(xs[1..], keep);
      var rest := Keep(xs[1..], keep);
      assert xs == [xs[0]] + xs[1..];
      assert multiset(xs) == multiset([xs[0]]) + multiset(xs[1..]);
      if keep(xs[0]) {
        assert multiset(Keep(xs, keep)) == multiset([xs[0]]) + multiset(rest);
      }
    }
  }

  /** Dropping the head of the longer sequence: what embeds in the tail
      embeds in the whole. */
  lemma {:induction false} SkipHead<X>(xs: seq<X>, ys: seq<X>)
    requires ys != [] && IsSubsequence(xs, ys[1..])
    ensures IsSubsequence(xs, ys)
    decreases |ys|, |xs|
  {
    if xs != [] && xs[0] == ys[0] {
      SubsequenceDropFirst(xs, ys[1..]);
    }
  }

  /** Dropping the head of the shorter sequence keeps it embedded. */
  lemma {:induction false} SubsequenceDropFirst<X>(xs: seq<X>, ys: seq<X>)
    requires xs != [] && IsSubsequence(xs, ys)
    ensures IsSubsequence(xs[1..], ys)
    decreases |ys|, |xs|
  {
    if xs[0] == ys[0] {
      if xs[1..] != [] {
        SkipHead(xs[1..], ys);
      }
    } else {
      SubsequenceDropFirst(xs, ys[1..]);
      if xs[1..] != [] {
        SkipHead(xs[1..], ys);
      }
    }
  }

  /** Filtering with a stronger test keeps a subsequence of what a weaker one keeps. */
  lemma {:induction false} KeepMonotone<X>(xs: seq<X>, strong: X -> bool, weak: X -> bool)
    requires forall x :: x in xs && strong(x) ==> weak(x)
    ensures IsSubsequence(Keep(xs, strong), Keep(xs, weak))
    decreases |xs|
  {
    if xs != [] {
      KeepMonotone(xs[1..], strong, weak);
      var s := Keep(xs[1..], strong);
      var w := Keep(xs[1..], weak);
      if strong(xs[0]) {
        assert Keep(xs, weak) == [xs[0]] + w;
        assert ([xs[0]] + w)[1..] == w;
      } else if weak(xs[0]) {
        assert Keep(xs, weak) == [xs[0]] + w;
        assert ([xs[0]] + w)[1..] == w;
        SkipHead(s, [xs[0]] + w);
      }
    }
  }

  /** `field.toLowerCase().includes(lowerCaseQuery)`. */
  predicate FieldMatches(field: string, lowerQuery: string) {
    Text.Includes(Text.ToLower(field), lowerQuery)
  }

  predicate AccountMatches(a: Account, lowerQuery: string) {
    FieldMatches(a.nickname, lowerQuery) || FieldMatches(a.accountId, lowerQuery)
  }

  predicate TransactionMatches(t: Transaction, lowerQuery: string) {
    FieldMatches(t.merchant, lowerQuery) || FieldMatches(t.trxId, lowerQuery)
  }

  predicate CustomerMatches(c: Customer, lowerQuery: string) {
    FieldMatches(c.name, lowerQuery) || FieldMatches(c.email, lowerQuery)
  }

  /** Reference definitions of a hit: one of the two searchable fields,
      lower-cased, contains the lower-cased query as a substring. */
  predicate AccountHit(a: Account, query: string) {
    Text.Occurs(Text.ToLower(query), Text.ToLower(a.nickname)) ||
    Text.Occurs(Text.ToLower(query), Text.ToLower(a.accountId))
  }

  predicate TransactionHit(t: Transaction, query: string) {
    Text.Occurs(Text.ToLower(query), Text.ToLower(t.merchant)) ||
    Text.Occurs(Text.ToLower(query), Text.ToLower(t.trxId))
  }

  predicate CustomerHit(c: Customer, query: string) {
    Text.Occurs(Text.ToLower(query), Text.ToLower(c.name)) ||
    Text.Occurs(Text.ToLower(query), Text.ToLower(c.email))
  }

  /** `queryAccounts`: empty for an empty query; otherwise exactly the
      accounts, in order, whose nickname or id contains the query ignoring case. */
  function QueryAccounts(query: string): (r: seq<Account>)
    ensures query == [] ==> r == []
    ensures IsSubsequence(r, MockAccounts)
    ensures forall k :: 0 <= k < |r| ==> AccountHit(r[k], query)
    ensures query != [] ==> forall a :: a in MockAccounts && AccountHit(a, query) ==> a in r
  {
    var lowerCaseQuery := Text.ToLower(query);
    if lowerCaseQuery == [] then []
    else Keep(MockAccounts, a => AccountMatches(a, lowerCaseQuery))
  }

  /** `queryTransactions`: the same over merchant and transaction id. */
  function QueryTransactions(query: string): (r: seq<Transaction>)
    ensures query == [] ==> r == []
    ensures IsSubsequence(r, MockTransactions)
    ensures forall k :: 0 <= k < |r| ==> TransactionHit(r[k], query)
    ensures query != [] ==> forall t :: t in MockTransactions && TransactionHit(t, query) ==> t in r
  {
    var lowerCaseQuery := Text.ToLower(query);
    if lowerCaseQuery == [] then []
    else Keep(MockTransactions, t => TransactionMatches(t, lowerCaseQuery))
  }

  /** `queryCustomers`: the same over name and email. */
  function QueryCustomers(query: string): (r: seq<Customer>)
    ensures query == [] ==> r == []
    ensures IsSubsequence(r, MockCustomers)
    ensures forall k :: 0 <= k < |r| ==> CustomerHit(r[k], query)
    ensures query != [] ==> forall c :: c in MockCustomers && CustomerHit(c, query) ==> c in r
  {
    var lowerCaseQuery := Text.ToLower(query);
    if lowerCaseQuery == [] then []
    else Keep(MockCustomers, c => CustomerMatches(c, lowerCaseQuery))
  }

  /** The results depend only on the lower-cased query, so queries differing
      only in ASCII letter case get the same results. */
  lemma CaseInsensitive(q1: string, q2: string)
    requires Text.ToLower(q1) == Text.ToLower(q2)
    ensures QueryAccounts(q1) == QueryAccounts(q2)
    ensures QueryTransactions(q1) == QueryTransactions(q2)
    ensures QueryCustomers(q1) == QueryCustomers(q2)
  {
  }

  /** A field matching an extended query matches the query itself. */
  lemma FieldMatchesPrefix(field: string, q: string, ext: string)
    requires FieldMatches(field, Text.ToLower(q + ext))
    ensures FieldMatches(field, Text.ToLower(q))
  {
    Text.ToLowerAppend(q, ext);
    Text.PrefixOccurs(Text.ToLower(q), Text.ToLower(ext), Text.ToLower(field));
  }

  /** Typing more characters after a non-empty query can only narrow the
      results: the new results are a subsequence of the old ones. */
  lemma ExtendingQueryNarrows(q: string, ext: string)
    requires q != []
    ensures IsSubsequence(QueryAccounts(q + ext), QueryAccounts(q))
    ensures IsSubsequence(QueryTransactions(q + ext), QueryTransactions(q))
    ensures IsSubsequence(QueryCustomers(q + ext), QueryCustomers(q))
  {
    var long := Text.ToLower(q + ext);
    var short := Text.ToLower(q);
    forall a | a in MockAccounts && AccountMatches(a, long) ensures AccountMatches(a, short) {
      if FieldMatches(a.nickname, long) { FieldMatchesPrefix(a.nickname, q, ext); }
      else { FieldMatchesPrefix(a.accountId, q, ext); }
    }
    KeepMonotone(MockAccounts, a => AccountMatches(a, long), a => AccountMatches(a, short));
    forall t | t in MockTransactions && TransactionMatches(t, long) ensures TransactionMatches(t, short) {
      if FieldMatches(t.merchant, long) { FieldMatchesPrefix(t.merchant, q, ext); }
      else { FieldMatchesPrefix(t.trxId, q, ext); }
    }
    KeepMonotone(MockTransactions, t => TransactionMatches(t, long), t => TransactionMatches(t, short));
    forall c | c in MockCustomers && CustomerMatches(c, long) ensures CustomerMatches(c, short) {
      if FieldMatches(c.name, long) { FieldMatchesPrefix(c.name, q, ext); }
      else { FieldMatchesPrefix(c.email, q, ext); }
    }
    KeepMonotone(MockCustomers, c => CustomerMatches(c, long), c => CustomerMatches(c, short));
  }

  /** A lower-case word found in a field is found in the lower-cased field. */
  lemma WordSurvivesLowering(field: string, word: string, i: nat)
    requires i + |word| <= |field| && field[i..i + |word|] == word
    requires forall k :: 0 <= k < |word| ==> !('A' <= word[k] <= 'Z')
    ensures Text.Occurs(word, Text.ToLower(field))
  {
    var low := Text.ToLower(field);
    forall k | 0 <= k < |word| ensures low[i..i + |word|][k] == word[k] {
      assert field[i + k] == word[k];
    }
    assert Text.MatchAt(low, word, i);
  }

  /** Every customer's email contains "example", so `queryCustomers("EXAMPLE")`
      returns all four customers in order. */
  lemma ExampleReturnsAllCustomers()
    ensures QueryCustomers("EXAMPLE") == MockCustomers
  {
    var q := Text.ToLower("EXAMPLE");
    assert q == "example" by {
      forall k | 0 <= k < 7 ensures q[k] == "example"[k] {
      }
    }
    forall c | c in MockCustomers ensures CustomerMatches(c, q) {
      var e := c.email;
      assert e[|e| - 11..|e| - 4] == "example";
      WordSurvivesLowering(e, q, |e| - 11);
    }
    KeepAll(MockCustomers, c => CustomerMatches(c, q));
  }

  lemma {:induction false} KeepAll<X>(xs: seq<X>, keep: X -> bool)
    requires forall x :: x in xs ==> keep(x)
    ensures Keep(xs, keep) == xs
    decreases |xs|
  {
    if xs != [] {
      KeepAll(xs[1..], keep);
    }
  }
}

=== FILE: search.dfy ===
/** The `smart-search` host of src/components/smart-search/smart-search.ts:
    input-changed values go through a 300-unit debounce; when the debounced
    search runs, a query shorter than two UTF-16 code units empties the result
    list without asking the provider, and any other query asks the provider and
    replaces the list with the mapped results. The dropdown is handed the list.

    The provider is a parameter: a total function from the query to its
    response, the awaited call taken as one atomic step. */
module SmartSearch {
  import opened Wrappers
  import Text
  import Seqs
  import Debounce
  import SmartDropdown

  type Item<T> = SmartDropdown.SearchResultItem<T>

  /** The debounce interval of the search. */
  const SearchWait: int := 300

  /** The shortest query (in UTF-16 code units) handed to the provider. */
  const MinQueryLength: nat := 2

  /** What the provider's promise settles to. */
  datatype Response<R> = Resolved(records: seq<R>) | Rejected

  datatype SearchState<T> = SearchState(timer: Debounce.Slot<string>, items: seq<Item<T>>)

  /** What reaches the host: an input-changed event at a time, or the clock. */
  datatype SearchEvent = InputChanged(value: string, at: int) | ClockTick(at: int)

  /** The new state, and the queries handed to the provider, in order. */
  datatype Reaction<T> = Reaction(state: SearchState<T>, providerQueries: seq<string>)

  function Initial<T>(): (s: SearchState<T>)
    ensures s.timer.None? && s.items == []
  {
    SearchState(None, [])
  }

  /** The default provider resolves to no records. */
  function DefaultProvider<R>(query: string): Response<R> {
    Resolved([])
  }

  /** The default mapper takes each record to be an item already. */
  function DefaultMapper<T>(record: Item<T>): Item<T> {
    record
  }

  /** `results.map(resultMapper)`. */
  function MapResults<R, T>(records: seq<R>, mapper: R -> Item<T>): (items: seq<Item<T>>)
    ensures |items| == |records|
    ensures forall i :: 0 <= i < |records| ==> items[i] == mapper(records[i])
  {
    seq(|records|, i requires 0 <= i < |records| => mapper(records[i]))
  }

  /** The body of the debounced search. A short query empties the list and
      leaves the provider alone; otherwise the provider is asked once, and a
      resolved response replaces the list with its records mapped one for one,
      in order, while a rejection leaves the list as it was. */
  function DebouncedSearch<R, T>(query: string, provider: string -> Response<R>, mapper: R -> Item<T>, items: seq<Item<T>>)
    : (r: Reaction<T>)
    ensures r.state.timer == None
    ensures Text.Utf16Length(query) < MinQueryLength ==> r.state.items == [] && r.providerQueries == []
    ensures Text.Utf16Length(query) >= MinQueryLength ==> r.providerQueries == [query]
    ensures Text.Utf16Length(query) >= MinQueryLength && provider(query).Resolved? ==>
      var records := provider(query).records;
      |r.state.items| == |records| && forall i :: 0 <= i < |records| ==> r.state.items[i] == mapper(records[i])
    ensures Text.Utf16Length(query) >= MinQueryLength && provider(query).Rejected? ==> r.state.items == items
  {
    if Text.Utf16Length(query) < MinQueryLength then
      Reaction(SearchState(None, []), [])
    else
      match provider(query)
      case Resolved(records) => Reaction(SearchState(None, MapResults(records, mapper)), [query])
      case Rejected => Reaction(SearchState(None, items), [query])
  }

  /** The timer's view of a host event. */
  function ToTimer(e: SearchEvent): Debounce.Event<string> {
    match e
    case InputChanged(v, t) => Debounce.Call(v, t)
    case ClockTick(t) => Debounce.Tick(t)
  }

  /** The timer's view of a sequence of host events. */
  function Timeline(es: seq<SearchEvent>): seq<Debounce.Event<string>>
    decreases |es|
  {
    if es == [] then [] else Timeline(Seqs.Init(es)) + [ToTimer(Seqs.Last(es))]
  }

  lemma TimelineLast(es: seq<SearchEvent>)
    requires es != []
    ensures Timeline(es) != []
    ensures Seqs.Init(Timeline(es)) == Timeline(Seqs.Init(es))
    ensures Seqs.Last(Timeline(es)) == ToTimer(Seqs.Last(es))
  {
  }

  lemma TimelineAppend(es: seq<SearchEvent>, e: SearchEvent)
    ensures Timeline(es + [e]) == Timeline(es) + [ToTimer(e)]
  {
    assert Seqs.Init(es + [e]) == es;
  }

  /** One event. `_handleInputChange` hands `detail.value` unchanged to the
      debounced search; the clock runs the search when it is due. */
  function Step<R, T>(s: SearchState<T>, e: SearchEvent, provider: string -> Response<R>, mapper: R -> Item<T>)
    : (r: Reaction<T>)
    ensures e.InputChanged? ==>
      r == Reaction(SearchState(Some(Debounce.Pending(e.at + SearchWait, e.value)), s.items), [])
    ensures e.ClockTick? && !(s.timer.Some? && s.timer.value.deadline <= e.at) ==> r == Reaction(s, [])
    ensures e.ClockTick? && s.timer.Some? && s.timer.value.deadline <= e.at ==>
      r == DebouncedSearch(s.timer.value.args, provider, mapper, s.items)
  {
    var fired := Debounce.Step(SearchWait, s.timer, ToTimer(e));
    match fired.ran
    case None => Reaction(SearchState(fired.slot, s.items), [])
    case Some(query) => DebouncedSearch(query, provider, mapper, s.items)
  }

  function Run<R, T>(s: SearchState<T>, es: seq<SearchEvent>, provider: string -> Response<R>, mapper: R -> Item<T>)
    : Reaction<T>
    decreases |es|
  {
    if es == [] then Reaction(s, [])
    else
      var before := Run(s, Seqs.Init(es), provider, mapper);
      var now := Step(before.state, Seqs.Last(es), provider, mapper);
      Reaction(now.state, before.providerQueries + now.providerQueries)
  }

  /** The searches that reach the provider: those at least two code units long. */
  function LongEnough(queries: seq<string>): seq<string>
    decreases |queries|
  {
    if queries == [] then []
    else
      var last := Seqs.Last(queries);
      LongEnough(Seqs.Init(queries)) + (if Text.Utf16Length(last) >= MinQueryLength then [last] else [])
  }

  lemma {:induction false} LongEnoughShorter(queries: seq<string>)
    ensures |LongEnough(queries)| <= |queries|
    decreases |queries|
  {
    if queries != [] {
      LongEnoughShorter(Seqs.Init(queries));
    }
  }

  /** Appending at most one query to the invocations appends its filtered form. */
  lemma LongEnoughAppend(queries: seq<string>, more: seq<string>)
    requires |more| <= 1
    ensures LongEnough(queries + more) == LongEnough(queries) + LongEnough(more)
  {
    if |more| == 1 {
      var all := queries + more;
      assert Seqs.Init(all) == queries && Seqs.Last(all) == more[0];
      assert Seqs.Init(more) == [] && Seqs.Last(more) == more[0];
    } else {
      assert queries + more == queries;
    }
  }

  /** One host event does what the debounce helper does with it, plus the
      search when the helper runs it. */
  lemma StepFollowsDebounce<R, T>(s: SearchState<T>, e: SearchEvent, provider: string -> Response<R>, mapper: R -> Item<T>)
    ensures var d := Debounce.Step(SearchWait, s.timer, ToTimer(e));
      var r := Step(s, e, provider, mapper);
      r.state.timer == d.slot && r.providerQueries == LongEnough(Debounce.OptionToSeq(d.ran))
  {
    var d := Debounce.Step(SearchWait, s.timer, ToTimer(e));
    if d.ran.Some? {
      var q := d.ran.value;
      assert Seqs.Init([q]) == [] && Seqs.Last([q]) == q;
    }
  }

  /** The host's timer is the debounce helper's slot. */
  lemma {:induction false} HostTimerIsDebounceSlot<R, T>(s: SearchState<T>, es: seq<SearchEvent>,
                                                         provider: string -> Response<R>, mapper: R -> Item<T>)
    ensures Run(s, es, provider, mapper).state.timer == Debounce.Run(SearchWait, s.timer, Timeline(es)).slot
    decreases |es|
  {
    if es != [] {
      var init := Seqs.Init(es);
      HostTimerIsDebounceSlot(s, init, provider, mapper);
      TimelineLast(es);
      StepFollowsDebounce(Run(s, init, provider, mapper).state, Seqs.Last(es), provider, mapper);
    }
  }

  /** The host is the debounce helper plus the search body: its timer is the
      helper's slot, and the provider is asked exactly for the debounced
      invocations whose query is long enough, in order. */
  lemma {:induction false} HostFollowsDebounce<R, T>(s: SearchState<T>, es: seq<SearchEvent>,
                                                     provider: string -> Response<R>, mapper: R -> Item<T>)
    ensures Run(s, es, provider, mapper).state.timer == Debounce.Run(SearchWait, s.timer, Timeline(es)).slot
    ensures Run(s, es, provider, mapper).providerQueries == LongEnough(Debounce.Run(SearchWait, s.timer, Timeline(es)).ran)
    decreases |es|
  {
    HostTimerIsDebounceSlot(s, es, provider, mapper);
    if es != [] {
      var init := Seqs.Init(es);
      HostFollowsDebounce(s, init, provider, mapper);
      TimelineLast(es);
      var hostBefore := Run(s, init, provider, mapper);
      var before := Debounce.Run(SearchWait, s.timer, Timeline(init));
      StepFollowsDebounce(hostBefore.state, Seqs.Last(es), provider, mapper);
      var now := Debounce.Step(SearchWait, before.slot, ToTimer(Seqs.Last(es)));
      LongEnoughAppend(before.ran, Debounce.OptionToSeq(now.ran));
    }
  }

  /** The invocation count is bounded by the edits: the provider is asked at
      most once per input-changed event. */
  lemma ProviderCallsBoundedByEdits<R, T>(es: seq<SearchEvent>, provider: string -> Response<R>, mapper: R -> Item<T>)
    ensures |Run(Initial<T>(), es, provider, mapper).providerQueries| <= Debounce.CountCalls(Timeline(es))
  {
    HostFollowsDebounce(Initial<T>(), es, provider, mapper);
    Debounce.InvocationsBoundedByCalls(SearchWait, Timeline(es));
    LongEnoughShorter(Debounce.Run(SearchWait, None, Timeline(es)).ran);
  }

  /** A burst of edits followed by a quiet interval yields one search, on the
      last value: the provider is asked once for it if it is long enough, and
      the list then holds its mapped results (or is emptied for a short one). */
  lemma BurstSearchesLastValue<R, T>(s: SearchState<T>, es: seq<SearchEvent>, t: int,
                                     provider: string -> Response<R>, mapper: R -> Item<T>)
    requires Debounce.Burst(SearchWait, Timeline(es))
    requires Debounce.LastCall(Timeline(es)).Some?
    requires t >= Debounce.LastCall(Timeline(es)).value.at + SearchWait
    ensures var last := Debounce.LastCall(Timeline(es)).value.args;
      var r := Run(s, es + [ClockTick(t)], provider, mapper);
      r.providerQueries == (if Text.Utf16Length(last) >= MinQueryLength then [last] else []) &&
      r.state == DebouncedSearch(last, provider, mapper, Run(s, es, provider, mapper).state.items).state
  {
    var ts := Timeline(es);
    var c := Debounce.LastCall(ts).value;
    Debounce.BurstKeepsLastCall(SearchWait, s.timer, ts);
    HostFollowsDebounce(s, es, provider, mapper);
    assert LongEnough([]) == [];
    var es' := es + [ClockTick(t)];
    assert Seqs.Init(es') == es && Seqs.Last(es') == ClockTick(t);
    TimelineAppend(es, ClockTick(t));
  }

  /** With the default provider the list is empty whatever the query. */
  lemma DefaultProviderYieldsNothing<T>(query: string, mapper: Item<T> -> Item<T>, items: seq<Item<T>>)
    ensures DebouncedSearch(query, DefaultProvider, mapper, items).state.items == []
  {
  }

  /** With the default mapper the list is exactly what the provider returned. */
  lemma DefaultMapperKeepsRecords<T>(query: string, records: seq<Item<T>>, items: seq<Item<T>>)
    requires Text.Utf16Length(query) >= MinQueryLength
    ensures DebouncedSearch(query, (q: string) => Resolved(records), DefaultMapper, items).state.items == records
  {
  }

  /** One character outside the Basic Multilingual Plane is two code units
      long, so such a query already reaches the provider. */
  lemma AstralCharacterReachesProvider<R, T>(provider: string -> Response<R>, mapper: R -> Item<T>, items: seq<Item<T>>)
    ensures DebouncedSearch("\U{1F600}", provider, mapper, items).providerQueries == ["\U{1F600}"]
  {
  }

  /** Any one character of the Basic Multilingual Plane is one code unit long,
      so such a query clears the list without reaching the provider. */
  lemma BmpCharacterIsTooShort<R, T>(c: char, provider: string -> Response<R>, mapper: R -> Item<T>, items: seq<Item<T>>)
    requires c as int <= 0xFFFF
    ensures DebouncedSearch([c], provider, mapper, items) == Reaction(SearchState(None, []), [])
  {
  }

  /** What the host renders: an input whose placeholder the host sets to
      "Search...", and a dropdown handed exactly the current items
      and no focused id, so no option is marked selected. The dropdown element
      is given no `id`, so its listbox id is built from the empty string. */
  datatype HostView<T> = HostView(
    placeholder: string,
    dropdownItems: seq<Item<T>>,
    dropdownFocus: Option<string>,
    listbox: SmartDropdown.ListboxView)

  function Render<T>(s: SearchState<T>): (v: HostView<T>)
    ensures v.placeholder == "Search..."
    ensures v.dropdownItems == s.items && v.dropdownFocus.None?
    ensures v.listbox == SmartDropdown.Render("", v.dropdownItems, v.dropdownFocus)
    ensures v.listbox.id == "-dropdown-listbox"
    ensures |v.listbox.options| == |s.items|
    ensures forall i :: 0 <= i < |s.items| ==>
      v.listbox.options[i].id == s.items[i].id &&
      v.listbox.options[i].text == s.items[i].primaryText &&
      v.listbox.options[i].ariaSelected == "false" &&
      v.listbox.options[i].cssClass == ""
  {
    HostView("Search...", s.items, None, SmartDropdown.Render("", s.items, None))
  }

  /** Clicking the i-th option the host shows selects the host's i-th item. */
  lemma HostClickSelectsItem<T>(s: SearchState<T>, i: nat)
    requires i < |s.items|
    ensures var v := Render(s);
      i < |v.listbox.options| &&
      SmartDropdown.HandleItemClick(v.dropdownItems, i) == SmartDropdown.ItemSelected(s.items[i]) &&
      v.listbox.options[i].id == s.items[i].id
  {
  }
}

=== FILE: seqs.dfy ===
/** Sequence helpers for folds that consume their input from the end, so that
    a trace and its prefixes line up for induction. */
module Seqs {

  /** The last element. */
  function Last<X>(xs: seq<X>): X
    requires |xs| > 0
  {
    xs[|xs| - 1]
  }

  /** Everything but the last element. */
  function Init<X>(xs: seq<X>): seq<X>
    requires |xs| > 0
  {
    xs[..|xs| - 1]
  }
}

=== FILE: text.dfy ===
/** String helpers shared by the components: ASCII case folding (the part of
    `String.prototype.toLowerCase` the model keeps), substring search as done by
    `String.prototype.includes`, JavaScript's UTF-16 `length`, and the decimal
    rendering of a number inside a template literal. */
module Text {

  /** ASCII lower-casing of one character; every other character is unchanged. */
  function Lower(c: char): (r: char)
    ensures 'A' <= c <= 'Z' ==> r as int == c as int + 32
    ensures !('A' <= c <= 'Z') ==> r == c
    ensures !('A' <= r <= 'Z')
  {
    if 'A' <= c <= 'Z' then (c as int + 32) as char else c
  }

  /** `s.toLowerCase()`, restricted to ASCII letters. */
  function ToLower(s: string): (r: string)
    ensures |r| == |s|
    ensures forall i :: 0 <= i < |s| ==> r[i] == Lower(s[i])
  {
    seq(|s|, i requires 0 <= i < |s| => Lower(s[i]))
  }

  /** Lower-casing distributes over concatenation. */
  lemma ToLowerAppend(a: string, b: string)
    ensures ToLower(a + b) == ToLower(a) + ToLower(b)
  {
    assert forall i :: 0 <= i < |a + b| ==> ToLower(a + b)[i] == (ToLower(a) + ToLower(b))[i];
  }

  /** `needle` sits in `hay` starting at index `i`. */
  predicate MatchAt(hay: string, needle: string, i: int) {
    0 <= i && i + |needle| <= |hay| && hay[i..i + |needle|] == needle
  }

  /** Reference definition: `needle` is a contiguous substring of `hay`. */
  predicate Occurs(needle: string, hay: string) {
    exists i | 0 <= i <= |hay| - |needle| :: MatchAt(hay, needle, i)
  }

  /** Left-to-right scan for `needle` starting at position `from`, the way
      `hay.includes(needle)` searches. */
  function IncludesFrom(hay: string, needle: string, from: nat): (r: bool)
    ensures r <==> exists i :: from <= i && MatchAt(hay, needle, i)
    decreases |hay| - from
  {
    if from + |needle| > |hay| then
      false
    else if hay[from..from + |needle|] == needle then
      assert MatchAt(hay, needle, from);
      true
    else
      var rest := IncludesFrom(hay, needle, from + 1);
      assert !MatchAt(hay, needle, from);
      rest
  }

  /** `hay.includes(needle)`. */
  function Includes(hay: string, needle: string): (r: bool)
    ensures r <==> Occurs(needle, hay)
  {
    IncludesFrom(hay, needle, 0)
  }

  /** A one-character string occurs exactly when the character does. */
  lemma {:induction false} SingleOccurs(c: char, hay: string)
    ensures Occurs([c], hay) <==> c in hay
  {
    if c in hay {
      var i :| 0 <= i < |hay| && hay[i] == c;
      assert MatchAt(hay, [c], i);
    }
    if Occurs([c], hay) {
      var i :| 0 <= i <= |hay| - 1 && MatchAt(hay, [c], i);
      assert hay[i] == hay[i..i + 1][0];
    }
  }

  /** A prefix of an occurring string occurs too. */
  lemma PrefixOccurs(a: string, b: string, hay: string)
    requires Occurs(a + b, hay)
    ensures Occurs(a, hay)
  {
    var i :| 0 <= i <= |hay| - |a + b| && MatchAt(hay, a + b, i);
    assert hay[i..i + |a|] == (a + b)[..|a|];
    assert MatchAt(hay, a, i);
  }

  /** JavaScript's `s.length`: the number of UTF-16 code units, so a character
      outside the Basic Multilingual Plane counts twice. */
  function Utf16Length(s: string): (n: nat)
    ensures |s| <= n <= 2 * |s|
    ensures |s| == 1 ==> n == CodeUnits(s[0])
    ensures (forall i :: 0 <= i < |s| ==> s[i] as int <= 0xFFFF) ==> n == |s|
  {
    if s == [] then 0
    else CodeUnits(s[0]) + Utf16Length(s[1..])
  }

  /** The UTF-16 code units of one character: two for a character outside the
      Basic Multilingual Plane (a surrogate pair), one otherwise. */
  function CodeUnits(c: char): (k: nat)
    ensures k == 1 || k == 2
    ensures k == 2 <==> c as int > 0xFFFF
  {
    if c as int > 0xFFFF then 2 else 1
  }

  /** `(a + b).length == a.length + b.length`: the length is additive. */
  lemma {:induction false} Utf16LengthAppend(a: string, b: string)
    ensures Utf16Length(a + b) == Utf16Length(a) + Utf16Length(b)
    decreases |a|
  {
    if a == [] {
      assert a + b == b;
    } else {
      assert (a + b)[0] == a[0] && (a + b)[1..] == a[1..] + b;
      Utf16LengthAppend(a[1..], b);
    }
  }

  /** Decimal digits of `n`, as `${n}` prints a non-negative integer. */
  function NatToDecimal(n: nat): (r: string)
    ensures |r| >= 1
    ensures forall i :: 0 <= i < |r| ==> '0' <= r[i] <= '9'
    ensures |r| > 1 ==> r[0] != '0'
  {
    if n < 10 then [Digit(n)] else NatToDecimal(n / 10) + [Digit(n % 10)]
  }

  function Digit(d: nat): (c: char)
    requires d < 10
    ensures '0' <= c <= '9' && c as int - '0' as int == d
  {
    ('0' as int + d) as char
  }

  /** Reads a string of decimal digits back as a number. */
  function DecimalToNat(s: string): nat
    requires forall i :: 0 <= i < |s| ==> '0' <= s[i] <= '9'
  {
    if s == [] then 0
    else DecimalToNat(s[..|s| - 1]) * 10 + (s[|s| - 1] as int - '0' as int)
  }

  /** Printing then reading a number gives the number back, so distinct
      indices print as distinct strings. */
  lemma {:induction false} DecimalRoundTrip(n: nat)
    ensures DecimalToNat(NatToDecimal(n)) == n
  {
    if n >= 10 {
      var s := NatToDecimal(n);
      assert s[..|s| - 1] == NatToDecimal(n / 10);
      DecimalRoundTrip(n / 10);
    }
  }

  /** Distinct numbers print differently. */
  lemma DecimalInjective(m: nat, n: nat)
    requires m != n
    ensures NatToDecimal(m) != NatToDecimal(n)
  {
    DecimalRoundTrip(m);
    DecimalRoundTrip(n);
  }
}

=== FILE: wrappers.dfy ===
/** The optional-value type used across the model for JavaScript's optional
    values (`undefined` / `null` versus a present value). */
module Wrappers {

  datatype Option<+T> = None | Some(value: T) {

    /** Returns the wrapped value, or `default` when there is none. */
    function GetOr(default: T): T {
      match this
      case Some(v) => v
      case None => default
    }
  }
}
